=== FILE: README.md ===
# Pose-state machine of the OpenSG/VRPN CAVE demo

This project models the core of `opensg_vrpn.cpp`: the process-wide pose
state of a CAVE application and the discrete events that drive it. The
state holds the head pose, the wand pose, the analog vector, the cached
tracker-to-centimetre scale, the follow-head flag, what the CAVE scene
manager holds (user transform, world translation, eye separation) and
which of the global handles exist. Each event is a pure function of
(state, event):

- the VRPN tracker callbacks for the head and the wand sensor, which
  overwrite one pose and scale the position by a factor computed once;
- the analog callback, which maps two channels to (c0, 0, -c1) and ignores
  reports with fewer than two channels;
- the button callback, which dumps the poses only for button 0 pressed;
- `check_tracker`, which calls `mainloop` on the tracker, button and
  analog remotes in that order; the three remotes are opened on one device
  name and so share one VRPN connection, and each call dispatches every
  message waiting on it, of any kind, in arrival order;
- the keyboard handler, with its guarded 2-unit head moves, the tilt keys,
  follow-head toggle, eye-separation scaling, dump and ignore branches;
- the GLUT idle step: pump, hand the head pose to the scene manager, add
  `speed * analog` (speed 1) to the world translation, commit, redraw and
  clear the change list.

Modules: `Geometry` (vectors and quaternions over `real`), `Reports`
(VRPN callback records and the messages waiting on the shared connection), `Options`, `PoseState`
(the state and the printed output), `Callbacks`, `Pump`, `Keyboard` and
`Frame` (the idle step).

Printed text is an abstract `Output` value (a dump carries the head pose,
wand pose and analog vector in the order they are printed). The idle step
returns the ordered list of calls it makes on the device channels, the
scene manager and OpenSG's change list. The messages waiting on the
connection when each `mainloop` call runs are an input: the network side
of VRPN is not modelled. Values computed by foreign libraries — the result of `convert_length` for the configured unit
system, the axis-angle quaternions used by 'u', 'j' and the initial head
orientation — are fields of a `Foreign` record in the state.

The code dereferences `tracker`, `button`, `analog` and `mgr` without a
null check, so `CheckTracker` and `Idle` require all of them to exist and
the 'e'/'E' keys require the scene manager. If `InitTracker` throws, some
handles stay null and `check_tracker` still dereferences them
(opensg_vrpn.cpp:240-251); the model makes those calls' preconditions.

## Model

| member | source | states |
|---|---|---|
| Callbacks.ScaleTracker2cm | opensg_vrpn.cpp:192-197 | the scale is taken from the unit factor on the first call and kept afterwards; the result is every component times the cached scale |
| Callbacks.ScaleFixedOnFirstUse | opensg_vrpn.cpp:192-197 | after a first conversion, a later call with any other unit factor still scales by the first factor |
| Callbacks.HeadTracker | opensg_vrpn.cpp:199-203 | head orientation is quat[0..3] in order, head position is scale times pos per axis, the scale is kept once set and taken from the unit factor before, nothing but the head pose and scale cache changes |
| Callbacks.WandTracker | opensg_vrpn.cpp:205-209 | wand orientation is quat[0..3] in order, wand position is scale times pos per axis, the scale is kept once set and taken from the unit factor before, nothing but the wand pose and scale cache changes |
| Callbacks.HeadWandCommute | opensg_vrpn.cpp:199-209 | head and wand callbacks commute, so the handler order for one report does not matter |
| Callbacks.AnalogCallback | opensg_vrpn.cpp:211-216 | with two or more channels the analog vector becomes (channel[0], 0, -channel[1]); with fewer it is unchanged; no other field changes either way |
| Callbacks.ButtonCallback | opensg_vrpn.cpp:218-222 | output is non-empty iff button 0 goes to state 1, is then exactly one dump of the current poses and analog vector, and the state is never changed |
| Pump.Deliver | opensg_vrpn.cpp:231-232 | a tracker report updates the head pose iff its sensor is the head sensor id and the wand pose iff it is the wand sensor id, each to the report's orientation and scaled position; only the poses and the scale cache change |
| Pump.Dispatch | opensg_vrpn.cpp:231-238 | a tracker or analog message prints nothing; a button message leaves the state alone; an analog message changes only the analog vector, a tracker message never does |
| Pump.Drain | opensg_vrpn.cpp:249-251 | one `mainloop` call changes only poses, scale cache and analog vector, keeps the scale once set, and prints only dumps |
| Pump.DrainAppend | opensg_vrpn.cpp:249-251 | dispatching two batches of messages one after the other is dispatching them as one batch, output concatenated |
| Pump.DrainHead | opensg_vrpn.cpp:231 | after dispatch the head pose comes from the last message for the head sensor id, scaled by the cached factor; with no such message the head pose is unchanged |
| Pump.DrainWand | opensg_vrpn.cpp:232 | after dispatch the wand pose comes from the last message for the wand sensor id; with no such message the wand pose is unchanged |
| Pump.DrainAnalogLatest | opensg_vrpn.cpp:211-216 | after dispatch the analog vector comes from the last analog message with at least two channels; with none the old vector persists |
| Pump.DrainCountsPresses | opensg_vrpn.cpp:218-222 | dispatch prints exactly one dump per button-0 press among the messages |
| Pump.DumpShowsStateSoFar | opensg_vrpn.cpp:218-222 | the dump a press prints shows the poses and analog vector left by the messages before it, whatever follows |
| Pump.CheckTracker | opensg_vrpn.cpp:247-252 | the three calls change only poses, scale cache and analog vector and print only dumps; with nothing waiting nothing changes or is printed |
| Pump.CheckTrackerDrainsAll | opensg_vrpn.cpp:247-252 | the three calls together dispatch every message that arrived in the frame, once, in arrival order, whichever call found it waiting |
| PoseState.DumpShowsOnlyPoses | opensg_vrpn.cpp:254-259 | two states print the same dump iff they agree on head pose, wand pose and analog vector; the scale cache, configuration, scene manager and handles never reach the output |
| Keyboard.Keyboard | opensg_vrpn.cpp:261-331 | the result is an exit iff the key is 'q' or 27; otherwise the wand, analog vector, scale, handles, user transform, world translation and sensor ids are unchanged |
| Keyboard.NudgeKeys | opensg_vrpn.cpp:271-299 | each of w/s/r/f/a/d agrees with an independent table of (axis, step, bound): the guard on the current coordinate is tested first, the step is added only if it holds, nothing is printed |
| Keyboard.NudgeStep | opensg_vrpn.cpp:271-299 | a movement key changes at most one coordinate; a guarded step ends strictly short of bound plus step; when the guard fails the position is unchanged |
| Keyboard.RepeatNudgeClamped | opensg_vrpn.cpp:271-299 | holding a movement key: once its guard fails the state never changes again; otherwise the coordinate moves monotonically and never passes bound plus step (for 'w', y stays below 272) |
| Keyboard.KeyKeepsVolume | opensg_vrpn.cpp:271-299 | no key moves the head out of the box -135 < x < 135, -4 < y < 272, -135 < z < 135 |
| Keyboard.KeysKeepVolume | opensg_vrpn.cpp:261-331 | any run of key events keeps the head inside that box if it started there |
| Keyboard.StartupKeysKeepVolume | opensg_vrpn.cpp:45 | from the start-up position, keyboard input alone keeps the head inside the box |
| Keyboard.ToggleFollowHead | opensg_vrpn.cpp:321-324 | 't' negates follow-head and prints the new value; two presses restore the state |
| Keyboard.EyeSeparationKeys | opensg_vrpn.cpp:311-320 | 'e' sets eye separation to old × 0.9 and 'E' to old × 1.1, printing the new value, and change nothing else |
| Keyboard.EyeSeparationUnbounded | opensg_vrpn.cpp:311-315 | n presses of 'e' leave exactly 0.9^n of the separation, so a positive separation keeps shrinking with no floor |
| Keyboard.EyeSeparationGrows | opensg_vrpn.cpp:316-320 | n presses of 'E' leave exactly 1.1^n of the separation, so a positive separation keeps growing with no ceiling |
| Keyboard.TiltKeys | opensg_vrpn.cpp:301-306 | 'u' and 'j' add a fixed quaternion to the head orientation and change nothing else |
| Keyboard.InertKeys | opensg_vrpn.cpp:307-329 | 'h' and 'k' do nothing, 'i' only dumps, any unrecognised key only reports that it was ignored; none changes the state |
| Frame.Idle | opensg_vrpn.cpp:350-360 | the user transform becomes the post-pump head pose; the translation becomes the old one plus the post-pump analog vector; eye separation, config and handles are unchanged; with nothing pending the poses and analog vector are unchanged and nothing is printed |
| Frame.IdleCallOrder | opensg_vrpn.cpp:350-360 | each of the tracker, button and analog channels is pumped exactly once per frame, in that order, and every pump comes before the head pose is applied; the applied pose is the post-pump head pose; exactly one redraw is requested; the change list is cleared last |
| Frame.QuietFrame | opensg_vrpn.cpp:350-356 | a frame with nothing pending only sets the user transform to the head pose and moves the world by the analog vector |
| Frame.QuietFramesIntegrate | opensg_vrpn.cpp:353-355 | n frames without device input leave the poses unchanged and move the translation by exactly n times the analog vector |
| Frame.SteadyAnalogDrift | opensg_vrpn.cpp:352-355 | over any run of frames in which no valid analog report arrives, whatever tracker and button traffic they carry, the analog vector is kept and the translation moves by exactly the number of frames times that vector |
| Frame.FrameUsesThisFramesSamples | opensg_vrpn.cpp:350-355 | a frame applies the head pose of the last head report that arrived in that same frame and moves the world by the vector of the last valid analog report of that frame |
| PoseState.Initial | opensg_vrpn.cpp:44-48 | before any event, head and wand positions and the analog vector are zero, the wand orientation is the identity and the scale has not been computed (the analog vector is declared at line 211) |

## Left out

- Scene-graph construction (`attachGroundToSceneGraph`, `attachSideWall`, `attachSunToSceneGraph`, `attachTorus`, `createScenegraph`, lines 50-190): pure OpenSG calls with no state of the core.
- `main`, GLUT window setup, the display and reshape callbacks (lines 333-349, 363-444): argument parsing, configuration loading, server start and window creation are I/O and foreign initialisation.
- `InitTracker` (lines 224-245): opening the VRPN connections and registering handlers is network setup; its effect is modelled as the `Handles` flags and as the sensor-id routing in `Pump.Deliver`.
- The internals of VRPN `mainloop`: which messages are waiting when each call runs is an input (`Pending`), not computed. VRPN's "all sensors" handler id is not modelled; a report reaches a handler when its sensor equals the registered id.
- `cleanup` and `exit` on 'q'/ESC (lines 34-40, 266-270): the model only records that the process ends (`Exit`), not the teardown.
- `convert_length`, OpenSG's axis-angle quaternion constructor and the scene manager's own use of the user transform, follow-head and eye separation: foreign code, represented by opaque values.
- PoseState.PrintTracker: the dump is an abstract value built from the head pose, wand pose and analog vector; what it shows is stated by `DumpShowsOnlyPoses` and where it is printed (`ButtonCallback`, `InertKeys`, `DumpShowsStateSoFar`).
- `print_tracker` formatting (lines 254-259) and the other printed text: output is an abstract value carrying what is printed, not the characters.
- Keyboard.TiltKeys: OpenSG's quaternion sum is not part of this model; it is taken as componentwise addition.
- IEEE float rounding: all components are reals, so `.9f`, `1.1f`, the float scale and the double-to-float conversion of tracker positions are exact in the model.
- The change-list commit and clear and the redraw are recorded as calls in order; their effect on the renderer is not modelled.

=== FILE: callbacks.dfy ===
/**
 The four VRPN callbacks and the unit conversion they share. Each is a
 pure transition of the pose state; the button callback's only effect is
 output.
 */
module Callbacks {
  import opened Geometry
  import opened Options
  import opened Reports
  import opened PoseState

  /** The cache after a conversion, and the converted vector. */
  datatype Scaled = Scaled(cache: Option<real>, value: Vec3)

  /**
   `scale_tracker2cm`: multiply by the unit factor held in a function-local
   static. The static is initialised on the first call from the unit
   factor of that moment (`unitToCm`) and is never recomputed.
   */
  function ScaleTracker2cm(cache: Option<real>, unitToCm: real, v: Vec3): (r: Scaled)
    ensures r.cache.Some?
    ensures cache.Some? ==> r.cache == cache
    ensures cache.None? ==> r.cache == Some(unitToCm)
    ensures forall a: Axis :: r.value.Get(a) == r.cache.value * v.Get(a)
  {
    var scale := if cache.Some? then cache.value else unitToCm;
    Scaled(Some(scale), v.Times(scale))
  }

  /** The pose a tracker report yields, and the scale cache after converting it. */
  function Sample(s: State, r: TrackerReport): (Pose, Option<real>)
  {
    var sc := ScaleTracker2cm(s.scale, s.foreign.unitToCm, PosOf(r));
    (Pose(QuatOf(r), sc.value), sc.cache)
  }

  /** `callback_head_tracker`: overwrite the head pose from a sensor sample. */
  function HeadTracker(s: State, r: TrackerReport): (s': State)
    ensures s'.head.orientation == Quat(r.quat[0], r.quat[1], r.quat[2], r.quat[3])
    ensures s'.scale.Some?
    ensures s.scale.Some? ==> s'.scale == s.scale
    ensures s.scale.None? ==> s'.scale == Some(s.foreign.unitToCm)
    ensures forall a: Axis :: s'.head.position.Get(a) == s'.scale.value * r.pos[a]
    ensures s' == s.(head := s'.head, scale := s'.scale)
  {
    var (p, c) := Sample(s, r);
    s.(head := p, scale := c)
  }

  /** `callback_wand_tracker`: overwrite the wand pose from a sensor sample. */
  function WandTracker(s: State, r: TrackerReport): (s': State)
    ensures s'.wand.orientation == Quat(r.quat[0], r.quat[1], r.quat[2], r.quat[3])
    ensures s'.scale.Some?
    ensures s.scale.Some? ==> s'.scale == s.scale
    ensures s.scale.None? ==> s'.scale == Some(s.foreign.unitToCm)
    ensures forall a: Axis :: s'.wand.position.Get(a) == s'.scale.value * r.pos[a]
    ensures s' == s.(wand := s'.wand, scale := s'.scale)
  {
    var (p, c) := Sample(s, r);
    s.(wand := p, scale := c)
  }

  /** The analog vector a report with at least two channels maps to. */
  function AnalogVector(a: AnalogReport): Vec3
  {
    Vec3(a.channel[0], 0.0, -a.channel[1])
  }

  /** `callback_analog`: take a report with two or more channels, ignore one with fewer. */
  function AnalogCallback(s: State, a: AnalogReport): (s': State)
    ensures a.numChannel >= 2 ==> s'.analog == Vec3(a.channel[0], 0.0, -a.channel[1])
    ensures a.numChannel < 2 ==> s'.analog == s.analog
    ensures s' == s.(analog := s'.analog)
  {
    if a.numChannel >= 2 then s.(analog := AnalogVector(a)) else s
  }

  /** A state together with the output produced while reaching it. */
  datatype Effect = Effect(st: State, out: seq<Output>)

  /** The one button event that triggers a dump: button 0 going to state 1. */
  predicate IsPress(b: ButtonReport)
  {
    b.button == 0 && b.state == 1
  }

  /** `callback_button`: dump the poses when button 0 is pressed, otherwise nothing. */
  function ButtonCallback(s: State, b: ButtonReport): (r: Effect)
    ensures r.st == s
    ensures |r.out| <= 1
    ensures r.out != [] <==> b.button == 0 && b.state == 1
    ensures forall o :: o in r.out ==> o == Dump(s.head, s.wand, s.analog)
  {
    Effect(s, if IsPress(b) then [PrintTracker(s)] else [])
  }

  /**
   The cached scale is fixed by the first conversion: whatever unit factor
   later calls see, every later result is scaled by the first one.
   */
  lemma ScaleFixedOnFirstUse(v: Vec3, w: Vec3, f1: real, f2: real)
    ensures var r1 := ScaleTracker2cm(None, f1, v);
            var r2 := ScaleTracker2cm(r1.cache, f2, w);
            r2.cache == r1.cache == Some(f1) && r2.value == w.Times(f1)
  {
  }

  /** The head and wand callbacks write disjoint fields, so their order does not matter. */
  lemma HeadWandCommute(s: State, r1: TrackerReport, r2: TrackerReport)
    ensures WandTracker(HeadTracker(s, r1), r2) == HeadTracker(WandTracker(s, r2), r1)
  {
  }
}

=== FILE: frame.dfy ===
/**
 The idle callback registered in `setupGLUT`: one frame of the loop. It
 pumps the devices, hands the head pose to the scene manager, moves the
 world by the analog vector, commits, redraws and clears the change list.
 */
module Frame {
  import opened Geometry
  import opened Reports
  import opened PoseState
  import opened Pump

  /** The calls one frame makes on the device channels and the scene manager, in order. */
  datatype Call =
    | TrackerMainloop
    | ButtonMainloop
    | AnalogMainloop
    | SetUserTransform(user: Pose)
    | SetTranslation(t: Vec3)
    | CommitChanges
    | Redraw
    | ClearChangeList

  /** The idle callback's `speed`. */
  const Speed: real := 1.0

  /** The state after a frame, the text it printed, and the calls it made. */
  datatype FrameResult = FrameResult(st: State, out: seq<Output>, calls: seq<Call>)

  /** The position of the first occurrence of `c` in `cs`, or `|cs|` if it does not occur. */
  function FirstAt(cs: seq<Call>, c: Call): (i: nat)
    ensures i <= |cs|
    ensures i < |cs| ==> cs[i] == c
    ensures forall j :: 0 <= j < i ==> cs[j] != c
  {
    if cs == [] then 0
    else if cs[0] == c then 0
    else 1 + FirstAt(cs[1..], c)
  }

  /** The position of the first `SetUserTransform`, or `|cs|` if there is none. */
  function ApplyAt(cs: seq<Call>): (i: nat)
    ensures i <= |cs|
    ensures i < |cs| ==> cs[i].SetUserTransform?
    ensures forall j :: 0 <= j < i ==> !cs[j].SetUserTransform?
  {
    if cs == [] then 0
    else if cs[0].SetUserTransform? then 0
    else 1 + ApplyAt(cs[1..])
  }

  /** How many of the calls are `c`. */
  function Count(cs: seq<Call>, c: Call): nat
  {
    if cs == [] then 0 else (if cs[0] == c then 1 else 0) + Count(cs[1..], c)
  }

  /** Whether a call pumps one of the device channels. */
  predicate IsPump(c: Call)
  {
    c.TrackerMainloop? || c.ButtonMainloop? || c.AnalogMainloop?
  }

  /** The tracker, button and analog channels are pumped in that order, all before the head pose is applied. */
  predicate PumpsBeforeApply(cs: seq<Call>)
  {
    && FirstAt(cs, TrackerMainloop) < FirstAt(cs, ButtonMainloop)
    && FirstAt(cs, ButtonMainloop) < FirstAt(cs, AnalogMainloop)
    && FirstAt(cs, AnalogMainloop) < ApplyAt(cs) < |cs|
  }

  /** The calls of one frame that applies `head` and moves the world to `t`. */
  function FrameCalls(head: Pose, t: Vec3): seq<Call>
  {
    [TrackerMainloop, ButtonMainloop, AnalogMainloop, SetUserTransform(head), SetTranslation(t),
     CommitChanges, Redraw, ClearChangeList]
  }

  /** A sequence without `c` in it counts none. */
  lemma {:induction false} NoneOf(cs: seq<Call>, c: Call)
    requires forall j :: 0 <= j < |cs| ==> cs[j] != c
    ensures Count(cs, c) == 0
  {
    if cs != [] {
      assert forall j :: 0 <= j < |cs[1..]| ==> cs[1..][j] == cs[j + 1];
      NoneOf(cs[1..], c);
    }
  }

  /** A sequence whose only `c` is at position `i` counts exactly one. */
  lemma {:induction false} OnlyAt(cs: seq<Call>, c: Call, i: nat)
    requires i < |cs| && cs[i] == c
    requires forall j :: 0 <= j < |cs| && j != i ==> cs[j] != c
    ensures Count(cs, c) == 1
    decreases i
  {
    assert forall j :: 0 <= j < |cs[1..]| ==> cs[1..][j] == cs[j + 1];
    if i == 0 {
      NoneOf(cs[1..], c);
    } else {
      OnlyAt(cs[1..], c, i - 1);
    }
  }

  /**
   Call order within a frame: each channel is pumped exactly once, the
   three in order and every pump before the head pose is applied; exactly
   one redraw, requested whatever the devices delivered; the change list is
   cleared last.
   */
  lemma FrameCallOrder(head: Pose, t: Vec3)
    ensures var cs := FrameCalls(head, t);
            && PumpsBeforeApply(cs)
            && Count(cs, TrackerMainloop) == Count(cs, ButtonMainloop) == Count(cs, AnalogMainloop) == 1
            && (forall j :: 0 <= j < |cs| && IsPump(cs[j]) ==> j < ApplyAt(cs))
            && cs[ApplyAt(cs)] == SetUserTransform(head)
            && Count(cs, Redraw) == 1
            && cs[|cs| - 1] == ClearChangeList
  {
    var cs := FrameCalls(head, t);
    assert cs[0] == TrackerMainloop && cs[1] == ButtonMainloop && cs[2] == AnalogMainloop && cs[3].SetUserTransform?;
    assert forall j :: 3 <= j < |cs| ==> !IsPump(cs[j]);
    OnlyAt(cs, TrackerMainloop, 0);
    OnlyAt(cs, ButtonMainloop, 1);
    OnlyAt(cs, AnalogMainloop, 2);
    OnlyAt(cs, Redraw, 6);
  }

  /**
   One idle step. The scene manager and all three device handles are
   dereferenced without a check.
   */
  function Idle(s: State, p: Pending): (r: FrameResult)
    requires Running(s.handles)
    ensures r.st.mgr.user == r.st.head
    ensures r.st.mgr.translation == s.mgr.translation.Plus(r.st.analog)
    ensures r.st.mgr.eyeSeparation == s.mgr.eyeSeparation
    ensures r.st == s.(head := r.st.head, wand := r.st.wand, scale := r.st.scale, analog := r.st.analog, mgr := r.st.mgr)
    ensures p == NothingPending ==> r.st.head == s.head && r.st.wand == s.wand && r.st.analog == s.analog && r.out == []
  {
    var e := CheckTracker(s, p);
    var t := e.st.mgr.translation.Plus(e.st.analog.Times(Speed));
    var st := e.st.(mgr := e.st.mgr.(user := e.st.head, translation := t));
    FrameResult(st, e.out, FrameCalls(e.st.head, t))
  }

  /**
   Within one frame the three channels are pumped, in order, before the
   head pose is handed over; the pose handed over is the one the pumps left
   behind; exactly one redraw is requested, whatever the devices delivered;
   and the change list is cleared last.
   */
  lemma IdleCallOrder(s: State, p: Pending)
    requires Running(s.handles)
    ensures var r := Idle(s, p);
            && PumpsBeforeApply(r.calls)
            && Count(r.calls, TrackerMainloop) == Count(r.calls, ButtonMainloop) == Count(r.calls, AnalogMainloop) == 1
            && (forall j :: 0 <= j < |r.calls| && IsPump(r.calls[j]) ==> j < ApplyAt(r.calls))
            && r.calls[ApplyAt(r.calls)] == SetUserTransform(r.st.head)
            && Count(r.calls, Redraw) == 1 && r.calls[|r.calls| - 1] == ClearChangeList
  {
    var e := CheckTracker(s, p);
    FrameCallOrder(e.st.head, e.st.mgr.translation.Plus(e.st.analog.Times(Speed)));
  }

  /** `n` frames in which no device has anything pending. */
  function IdleQuiet(s: State, n: nat): (s': State)
    requires Running(s.handles)
    ensures s'.handles == s.handles
    decreases n
  {
    if n == 0 then s else IdleQuiet(Idle(s, NothingPending).st, n - 1)
  }

  /** `t` moved by `a`, `n` times over. */
  function Drift(t: Vec3, a: Vec3, n: nat): Vec3
    decreases n
  {
    if n == 0 then t else Drift(t.Plus(a), a, n - 1)
  }

  /** Moving `n` times by `a` is moving once by `n` times `a`. */
  lemma {:induction false} DriftIsScaled(t: Vec3, a: Vec3, n: nat)
    ensures Drift(t, a, n) == t.Plus(a.Times(n as real))
    decreases n
  {
    if n == 0 {
      assert a.Times(0 as real) == Zero;
    } else {
      DriftIsScaled(t.Plus(a), a, n - 1);
      Accumulate(t, a, n - 1);
    }
  }

  /** Moving by `a` and then by `m` times `a` is moving by `m + 1` times `a`. */
  lemma Accumulate(t: Vec3, a: Vec3, m: nat)
    ensures t.Plus(a).Plus(a.Times(m as real)) == t.Plus(a.Times((m + 1) as real))
  {
    assert (m + 1) as real * a.x == a.x + m as real * a.x;
    assert (m + 1) as real * a.y == a.y + m as real * a.y;
    assert (m + 1) as real * a.z == a.z + m as real * a.z;
  }

  /** A frame with nothing pending only hands the head pose over and moves the world by the analog vector. */
  lemma QuietFrame(s: State)
    requires Running(s.handles)
    ensures Idle(s, NothingPending).st == s.(mgr := s.mgr.(user := s.head, translation := s.mgr.translation.Plus(s.analog)))
  {
  }

  /** With no device input, every frame moves the world once more by the unchanged analog vector. */
  lemma {:induction false} QuietFramesDrift(s: State, n: nat)
    requires Running(s.handles)
    ensures var s' := IdleQuiet(s, n);
            && s'.head == s.head && s'.wand == s.wand && s'.analog == s.analog
            && s'.mgr.translation == Drift(s.mgr.translation, s.analog, n)
    decreases n
  {
    if n > 0 {
      var s1 := s.(mgr := s.mgr.(user := s.head, translation := s.mgr.translation.Plus(s.analog)));
      QuietFrame(s);
      assert IdleQuiet(s, n) == IdleQuiet(s1, n - 1);
      QuietFramesDrift(s1, n - 1);
      assert Drift(s.mgr.translation, s.analog, n) == Drift(s1.mgr.translation, s1.analog, n - 1);
    }
  }

  /**
   With no device input the poses and analog vector stay as they are, and
   each frame moves the world by the analog vector once: after `n` frames
   the translation has moved by exactly `n` times that vector.
   */
  lemma QuietFramesIntegrate(s: State, n: nat)
    requires Running(s.handles)
    ensures var s' := IdleQuiet(s, n);
            && s'.head == s.head && s'.wand == s.wand && s'.analog == s.analog
            && s'.mgr.translation == s.mgr.translation.Plus(s.analog.Times(n as real))
  {
    QuietFramesDrift(s, n);
    DriftIsScaled(s.mgr.translation, s.analog, n);
  }

  /**
   The frame applies exactly the samples delivered by its own pumps: the
   user transform is the head pose of the last head report pumped in this
   frame (or the previous head pose when none arrived), and the world moves
   by the analog vector of the last valid analog report.
   */
  lemma FrameUsesThisFramesSamples(s: State, p: Pending)
    requires Running(s.handles)
    ensures var r := Idle(s, p);
            && (match LastFor(Arrived(p), s.cfg.sensorHead)
                case None => r.st.mgr.user == s.head
                case Some(h) => r.st.scale.Some? && r.st.mgr.user == Pose(QuatOf(h), PosOf(h).Times(r.st.scale.value)))
            && (match LastValid(Arrived(p))
                case None => r.st.mgr.translation == s.mgr.translation.Plus(s.analog)
                case Some(a) => r.st.mgr.translation == s.mgr.translation.Plus(Vec3(a.channel[0], 0.0, -a.channel[1])))
  {
    CheckTrackerDrainsAll(s, p);
    DrainHead(s, Arrived(p));
    DrainAnalogLatest(s, Arrived(p));
  }

  /** One idle step per entry of `ps`, each with that frame's waiting messages. */
  function IdleRun(s: State, ps: seq<Pending>): (s': State)
    requires Running(s.handles)
    ensures s'.handles == s.handles
    decreases |ps|
  {
    if ps == [] then s else IdleRun(Idle(s, ps[0]).st, ps[1..])
  }

  /**
   Frames in which no valid analog report arrives keep the analog vector,
   whatever tracker and button traffic they carry, and each moves the world
   by it once: after `|ps|` frames the translation has moved by exactly
   `|ps|` times that vector.
   */
  lemma {:induction false} SteadyAnalogDrift(s: State, ps: seq<Pending>)
    requires Running(s.handles)
    requires forall i :: 0 <= i < |ps| ==> LastValid(Arrived(ps[i])).None?
    ensures var s' := IdleRun(s, ps);
            && s'.analog == s.analog
            && s'.mgr.translation == s.mgr.translation.Plus(s.analog.Times(|ps| as real))
    decreases |ps|
  {
    if ps == [] {
      assert s.analog.Times(0 as real) == Zero;
    } else {
      var s1 := Idle(s, ps[0]).st;
      CheckTrackerDrainsAll(s, ps[0]);
      DrainAnalogLatest(s, Arrived(ps[0]));
      assert s1.analog == s.analog;
      assert forall i :: 0 <= i < |ps[1..]| ==> ps[1..][i] == ps[i + 1];
      SteadyAnalogDrift(s1, ps[1..]);
      Accumulate(s.mgr.translation, s.analog, |ps| - 1);
    }
  }
}

=== FILE: geometry.dfy ===
/**
 Vectors and quaternions of the pose-state machine. OpenSG's `Vec3f`,
 `Vec3d` and `Quaternion` hold IEEE floats; here every component is a
 `real`, so rounding is not modelled.
 */
module Geometry {

  /** An index into a 3-vector: 0 is x (lateral), 1 is y (vertical), 2 is z (depth). */
  type Axis = i: int | 0 <= i < 3

  datatype Vec3 = Vec3(x: real, y: real, z: real) {

    /** The component on axis `a`, as `v[a]` reads it. */
    function Get(a: Axis): real
    {
      if a == 0 then x else if a == 1 then y else z
    }

    /** This vector with the component on axis `a` replaced by `c`. */
    function With(a: Axis, c: real): Vec3
    {
      if a == 0 then Vec3(c, y, z) else if a == 1 then Vec3(x, c, z) else Vec3(x, y, c)
    }

    /** Componentwise sum, OpenSG's `operator+` on vectors. */
    function Plus(v: Vec3): Vec3
    {
      Vec3(x + v.x, y + v.y, z + v.z)
    }

    /** Every component multiplied by `k`, OpenSG's `operator*` with a scalar. */
    function Times(k: real): Vec3
    {
      Vec3(k * x, k * y, k * z)
    }
  }

  const Zero := Vec3(0.0, 0.0, 0.0)

  /** A quaternion in the order (x, y, z, w) that OpenSG's four-argument constructor takes. */
  datatype Quat = Quat(x: real, y: real, z: real, w: real) {

    /** Componentwise sum of two quaternions. */
    function Plus(q: Quat): Quat
    {
      Quat(x + q.x, y + q.y, z + q.z, w + q.w)
    }
  }

  /** What OpenSG's default `Quaternion()` constructor yields: no rotation. */
  const Identity := Quat(0.0, 0.0, 0.0, 1.0)
}

=== FILE: keyboard.dfy ===
/**
 The keyboard handler: one key event per call, each a transition of the
 pose state plus the text it prints. The quit keys end the process.
 */
module Keyboard {
  import opened Geometry
  import opened Options
  import opened PoseState

  /** The key code 27 (escape). */
  const Esc: char := 27 as char

  /** Either the process carries on in a new state, having printed `out`, or it has exited. */
  datatype KeyResult = Continue(st: State, out: seq<Output>) | Exit

  /** The state with `d` added to the head position. */
  function MoveHead(s: State, d: Vec3): State
  {
    s.(head := s.head.(position := s.head.position.Plus(d)))
  }

  /**
   `keyboard`: dispatch on the key. The head-movement keys test one
   coordinate against a bound before stepping it by 2; 'e' and 'E' read
   and write the scene manager's eye separation without a null check.
   */
  function Keyboard(s: State, k: char): (r: KeyResult)
    requires k == 'e' || k == 'E' ==> s.handles.manager
    ensures r.Exit? <==> k == 'q' || k == Esc
    ensures r.Continue? ==> r.st == s.(head := r.st.head, cfg := r.st.cfg, mgr := r.st.mgr)
    ensures r.Continue? ==> r.st.mgr.user == s.mgr.user && r.st.mgr.translation == s.mgr.translation
    ensures r.Continue? ==> r.st.cfg.sensorHead == s.cfg.sensorHead && r.st.cfg.sensorWand == s.cfg.sensorWand
  {
    var p := s.head.position;
    if k == 'q' || k == Esc then Exit
    else if k == 'w' then Continue(if p.y < 270.0 then MoveHead(s, Vec3(0.0, 2.0, 0.0)) else s, [])
    else if k == 's' then Continue(if p.y > -2.0 then MoveHead(s, Vec3(0.0, -2.0, 0.0)) else s, [])
    else if k == 'r' then Continue(if p.z > -133.0 then MoveHead(s, Vec3(0.0, 0.0, -2.0)) else s, [])
    else if k == 'f' then Continue(if p.z < 133.0 then MoveHead(s, Vec3(0.0, 0.0, 2.0)) else s, [])
    else if k == 'a' then Continue(if p.x > -133.0 then MoveHead(s, Vec3(-2.0, 0.0, 0.0)) else s, [])
    else if k == 'd' then Continue(if p.x < 133.0 then MoveHead(s, Vec3(2.0, 0.0, 0.0)) else s, [])
    else if k == 'u' then
      Continue(s.(head := s.head.(orientation := s.head.orientation.Plus(s.foreign.tiltUp))), [])
    else if k == 'j' then
      Continue(s.(head := s.head.(orientation := s.head.orientation.Plus(s.foreign.tiltDown))), [])
    else if k == 'h' || k == 'k' then Continue(s, [])
    else if k == 'e' then
      var ed := s.mgr.eyeSeparation * 0.9;
      Continue(s.(mgr := s.mgr.(eyeSeparation := ed)), [EyeDistance(ed)])
    else if k == 'E' then
      var ed := s.mgr.eyeSeparation * 1.1;
      Continue(s.(mgr := s.mgr.(eyeSeparation := ed)), [EyeDistance(ed)])
    else if k == 't' then
      var on := !s.cfg.followHead;
      Continue(s.(cfg := s.cfg.(followHead := on)), [FollowingHead(on)])
    else if k == 'i' then Continue(s, [PrintTracker(s)])
    else Continue(s, [KeyIgnored(k)])
  }

  /** A head-movement key as data: the axis it moves, its step, and the bound its guard tests. */
  datatype Nudge = Nudge(axis: Axis, delta: real, limit: real)

  /** The six head-movement keys, independently of how `Keyboard` is written. */
  function NudgeOf(k: char): Option<Nudge>
  {
    match k
    case 'w' => Some(Nudge(1, 2.0, 270.0))
    case 's' => Some(Nudge(1, -2.0, -2.0))
    case 'r' => Some(Nudge(2, -2.0, -133.0))
    case 'f' => Some(Nudge(2, 2.0, 133.0))
    case 'a' => Some(Nudge(0, -2.0, -133.0))
    case 'd' => Some(Nudge(0, 2.0, 133.0))
    case _ => None
  }

  /** The guard: a coordinate may step up while below the bound, down while above it. */
  predicate Allows(n: Nudge, c: real)
  {
    if n.delta > 0.0 then c < n.limit else c > n.limit
  }

  /** The furthest a guarded step can carry a coordinate: strictly short of bound plus step. */
  predicate WithinReach(n: Nudge, c: real)
  {
    if n.delta > 0.0 then c < n.limit + n.delta else c > n.limit + n.delta
  }

  /**
   Each movement key tests its guard before stepping: when the guard holds
   it adds the step to its one coordinate, otherwise it does nothing. It
   prints nothing and touches no other part of the state.
   */
  lemma NudgeKeys(s: State, k: char)
    requires NudgeOf(k).Some?
    ensures var n := NudgeOf(k).value;
            var c := s.head.position.Get(n.axis);
            Keyboard(s, k) == Continue(s.(head := s.head.(position :=
              if Allows(n, c) then s.head.position.With(n.axis, c + n.delta) else s.head.position)), [])
  {
  }

  /** A movement key changes at most one coordinate, and a guarded step stays within reach of the bound. */
  lemma NudgeStep(s: State, k: char)
    requires NudgeOf(k).Some?
    ensures var n := NudgeOf(k).value;
            var p := s.head.position;
            var p' := Keyboard(s, k).st.head.position;
            && (forall a: Axis :: a != n.axis ==> p'.Get(a) == p.Get(a))
            && (Allows(n, p.Get(n.axis)) ==> p'.Get(n.axis) == p.Get(n.axis) + n.delta && WithinReach(n, p'.Get(n.axis)))
            && (!Allows(n, p.Get(n.axis)) ==> p' == p)
  {
    NudgeKeys(s, k);
  }

  /** The state after pressing the same non-quit key `n` times. */
  function Repeat(s: State, k: char, n: nat): (s': State)
    requires k != 'q' && k != Esc
    requires k == 'e' || k == 'E' ==> s.handles.manager
    ensures s'.handles == s.handles && s'.wand == s.wand && s'.analog == s.analog
    decreases n
  {
    if n == 0 then s else Repeat(Keyboard(s, k).st, k, n - 1)
  }

  /**
   Holding a movement key: once the guard fails the key is a no-op for
   good; while it holds, the coordinate moves monotonically towards the
   bound and never gets past bound plus step.
   */
  lemma {:induction false} RepeatNudgeClamped(s: State, k: char, count: nat)
    requires NudgeOf(k).Some?
    ensures var n := NudgeOf(k).value;
            var c := s.head.position.Get(n.axis);
            var s' := Repeat(s, k, count);
            var c' := s'.head.position.Get(n.axis);
            && (!Allows(n, c) ==> s' == s)
            && (Allows(n, c) ==> WithinReach(n, c'))
            && (if n.delta > 0.0 then c <= c' else c' <= c)
            && (forall a: Axis :: a != n.axis ==> s'.head.position.Get(a) == s.head.position.Get(a))
    decreases count
  {
    if count > 0 {
      NudgeStep(s, k);
      var s1 := Keyboard(s, k).st;
      RepeatNudgeClamped(s1, k, count - 1);
    }
  }

  /** The volume every movement key keeps the head in, with or without a guarded step. */
  predicate InVolume(p: Vec3)
  {
    -135.0 < p.x < 135.0 && -4.0 < p.y < 272.0 && -135.0 < p.z < 135.0
  }

  /** No single key can move the head out of the volume. */
  lemma KeyKeepsVolume(s: State, k: char)
    requires k == 'e' || k == 'E' ==> s.handles.manager
    requires InVolume(s.head.position)
    ensures var r := Keyboard(s, k); r.Continue? ==> InVolume(r.st.head.position)
  {
    if NudgeOf(k).Some? {
      NudgeStep(s, k);
    }
  }

  /** A run of key events, stopping at the first quit key. */
  function RunKeys(s: State, ks: seq<char>): (r: KeyResult)
    requires s.handles.manager || forall i :: 0 <= i < |ks| ==> ks[i] != 'e' && ks[i] != 'E'
    ensures r.Continue? ==> r.st.handles == s.handles
    decreases |ks|
  {
    if ks == [] then Continue(s, [])
    else
      match Keyboard(s, ks[0])
      case Exit => Exit
      case Continue(s1, out) =>
        match RunKeys(s1, ks[1..])
        case Exit => Exit
        case Continue(s2, out2) => Continue(s2, out + out2)
  }

  /** Whatever keys are pressed, manual movement never leaves the volume it started in. */
  lemma {:induction false} KeysKeepVolume(s: State, ks: seq<char>)
    requires s.handles.manager || forall i :: 0 <= i < |ks| ==> ks[i] != 'e' && ks[i] != 'E'
    requires InVolume(s.head.position)
    ensures var r := RunKeys(s, ks); r.Continue? ==> InVolume(r.st.head.position)
    decreases |ks|
  {
    if ks != [] {
      KeyKeepsVolume(s, ks[0]);
      var r := Keyboard(s, ks[0]);
      if r.Continue? {
        KeysKeepVolume(r.st, ks[1..]);
      }
    }
  }

  /** From the start-up state, keyboard input alone keeps the head in the volume. */
  lemma StartupKeysKeepVolume(cfg: Config, mgr: Manager, foreign: Foreign, ks: seq<char>)
    ensures var s := Initial(cfg, mgr, Handles(true, true, true, true), foreign);
            var r := RunKeys(s, ks);
            r.Continue? ==> InVolume(r.st.head.position)
  {
    KeysKeepVolume(Initial(cfg, mgr, Handles(true, true, true, true), foreign), ks);
  }

  /** 't' negates follow-head and reports the new value; pressing it twice restores the state. */
  lemma ToggleFollowHead(s: State)
    ensures Keyboard(s, 't') == Continue(s.(cfg := s.cfg.(followHead := !s.cfg.followHead)), [FollowingHead(!s.cfg.followHead)])
    ensures Keyboard(Keyboard(s, 't').st, 't').st == s
  {
  }

  /** 'e' scales the eye separation by 0.9 and 'E' by 1.1, printing the new value, and change nothing else. */
  lemma EyeSeparationKeys(s: State)
    requires s.handles.manager
    ensures var ed := s.mgr.eyeSeparation * 0.9;
            Keyboard(s, 'e') == Continue(s.(mgr := s.mgr.(eyeSeparation := ed)), [EyeDistance(ed)])
    ensures var ed := s.mgr.eyeSeparation * 1.1;
            Keyboard(s, 'E') == Continue(s.(mgr := s.mgr.(eyeSeparation := ed)), [EyeDistance(ed)])
  {
  }

  /** `b` raised to the power `n`. */
  function Pow(b: real, n: nat): real
  {
    if n == 0 then 1.0 else b * Pow(b, n - 1)
  }

  /**
   There is no floor: `n` presses of 'e' leave exactly `0.9^n` of the
   separation, so a positive separation shrinks on every press without
   ever reaching a bound.
   */
  lemma {:induction false} EyeSeparationUnbounded(s: State, n: nat)
    requires s.handles.manager
    ensures Repeat(s, 'e', n).mgr.eyeSeparation == s.mgr.eyeSeparation * Pow(0.9, n)
    ensures s.mgr.eyeSeparation > 0.0 && n > 0 ==> 0.0 < Repeat(s, 'e', n).mgr.eyeSeparation < s.mgr.eyeSeparation
    decreases n
  {
    if n > 0 {
      var s1 := Keyboard(s, 'e').st;
      EyeSeparationUnbounded(s1, n - 1);
      PowBounds(0.9, n - 1);
      assert s1.mgr.eyeSeparation * Pow(0.9, n - 1) == s.mgr.eyeSeparation * (0.9 * Pow(0.9, n - 1));
    }
  }

  /**
   There is no ceiling either: `n` presses of 'E' leave exactly `1.1^n` of
   the separation, so a positive separation grows on every press.
   */
  lemma {:induction false} EyeSeparationGrows(s: State, n: nat)
    requires s.handles.manager
    ensures Repeat(s, 'E', n).mgr.eyeSeparation == s.mgr.eyeSeparation * Pow(1.1, n)
    ensures s.mgr.eyeSeparation > 0.0 && n > 0 ==> Repeat(s, 'E', n).mgr.eyeSeparation > s.mgr.eyeSeparation
    decreases n
  {
    if n > 0 {
      var s1 := Keyboard(s, 'E').st;
      EyeSeparationGrows(s1, n - 1);
      PowAtLeastOne(1.1, n - 1);
      assert s1.mgr.eyeSeparation * Pow(1.1, n - 1) == s.mgr.eyeSeparation * (1.1 * Pow(1.1, n - 1));
    }
  }

  lemma {:induction false} PowAtLeastOne(b: real, n: nat)
    requires b >= 1.0
    ensures Pow(b, n) >= 1.0
    decreases n
  {
    if n > 0 {
      PowAtLeastOne(b, n - 1);
    }
  }

  lemma {:induction false} PowBounds(b: real, n: nat)
    requires 0.0 < b < 1.0
    ensures 0.0 < Pow(b, n) <= 1.0
    decreases n
  {
    if n > 0 {
      PowBounds(b, n - 1);
    }
  }

  /** 'u' and 'j' add a fixed quaternion to the head orientation and change nothing else. */
  lemma TiltKeys(s: State)
    ensures Keyboard(s, 'u') == Continue(s.(head := s.head.(orientation := s.head.orientation.Plus(s.foreign.tiltUp))), [])
    ensures Keyboard(s, 'j') == Continue(s.(head := s.head.(orientation := s.head.orientation.Plus(s.foreign.tiltDown))), [])
  {
  }

  /** The keys the handler has a branch for. */
  predicate Recognised(k: char)
  {
    k == Esc || k in "qwsrfadujhkeEti"
  }

  /**
   'h' and 'k' do nothing, 'i' only dumps the poses, and any other key
   only reports that it was ignored: none of them changes the state.
   */
  lemma InertKeys(s: State, k: char)
    ensures k == 'h' || k == 'k' ==> Keyboard(s, k) == Continue(s, [])
    ensures k == 'i' ==> Keyboard(s, k) == Continue(s, [Dump(s.head, s.wand, s.analog)])
    ensures !Recognised(k) ==> Keyboard(s, k) == Continue(s, [KeyIgnored(k)])
  {
  }
}

=== FILE: options.dfy ===
/** An optional value: the scale cache before first use, or "no such report". */
module Options {

  datatype Option<T> = None | Some(value: T)
}

=== FILE: pose_state.dfy ===
/**
 The process-wide state of the application: the poses and analog vector
 the device callbacks write, the cached unit scale, the configuration
 fields the keyboard changes, what the CAVE scene manager holds, and which
 of the heap handles exist.
 */
module PoseState {
  import opened Geometry
  import opened Options

  /** A tracked body: orientation plus position in centimetres. */
  datatype Pose = Pose(orientation: Quat, position: Vec3)

  /** The configuration fields the core reads or writes. */
  datatype Config = Config(followHead: bool, sensorHead: int, sensorWand: int)

  /**
   Values that foreign library calls produce and the model cannot compute:
   `unitToCm` is what `convert_length(cfg.getUnits(), 1, centimetres)`
   returns for the configured unit system; `tiltUp` and `tiltDown` are the
   axis-angle quaternions the 'u' and 'j' keys add; `initialHead` is the
   axis-angle quaternion the head orientation starts from.
   */
  datatype Foreign = Foreign(unitToCm: real, tiltUp: Quat, tiltDown: Quat, initialHead: Quat)

  /** What the CAVE scene manager holds that the core sets or reads. */
  datatype Manager = Manager(user: Pose, translation: Vec3, eyeSeparation: real)

  /** Which of the global pointers `tracker`, `button`, `analog` and `mgr` are non-null. */
  datatype Handles = Handles(tracker: bool, button: bool, analog: bool, manager: bool)

  datatype State = State(
    head: Pose,
    wand: Pose,
    analog: Vec3,
    scale: Option<real>,   // the static local of scale_tracker2cm: None until first use
    cfg: Config,
    mgr: Manager,
    handles: Handles,
    foreign: Foreign)

  /** True when all three device channels and the scene manager exist. */
  predicate Running(h: Handles)
  {
    h.tracker && h.button && h.analog && h.manager
  }

  /** Text written to standard output, kept abstract. */
  datatype Output =
    | Dump(head: Pose, wand: Pose, analog: Vec3)   // print_tracker: head line, wand line, analog line
    | EyeDistance(ed: real)
    | FollowingHead(on: bool)
    | KeyIgnored(k: char)

  /** The diagnostic dump `print_tracker` writes for state `s`. */
  function PrintTracker(s: State): Output
  {
    Dump(s.head, s.wand, s.analog)
  }

  /**
   Two states print the same dump iff they agree on the head pose, the wand
   pose and the analog vector: the scale cache, configuration, scene
   manager and handles never reach the output.
   */
  lemma DumpShowsOnlyPoses(s: State, t: State)
    ensures PrintTracker(s) == PrintTracker(t) <==> s.head == t.head && s.wand == t.wand && s.analog == t.analog
  {
  }

  /**
   The state when the GLUT main loop starts: the pose globals at their
   initial values, with the configuration, scene manager and handles that
   `main` set up.
   */
  function Initial(cfg: Config, mgr: Manager, handles: Handles, foreign: Foreign): (s: State)
    ensures s.head.position == Zero && s.wand.position == Zero && s.analog == Zero
    ensures s.head.orientation == foreign.initialHead && s.wand.orientation == Identity
    ensures s.scale.None?
  {
    State(Pose(foreign.initialHead, Zero), Pose(Identity, Zero), Zero, None, cfg, mgr, handles, foreign)
  }
}

=== FILE: pump.dfy ===
/**
 Pumping the device channels (`check_tracker`). The three remotes share
 one VRPN connection, and a `mainloop` call on any of them dispatches
 every message waiting on it, in arrival order, to the callback
 registered for it. What is waiting is an input, since the network side
 of VRPN is not modelled.
 */
module Pump {
  import opened Geometry
  import opened Options
  import opened Reports
  import opened PoseState
  import opened Callbacks

  /**
   Deliver one tracker report: the head handler is registered for the
   head sensor id and the wand handler for the wand sensor id, so a report
   updates the head iff it is for the head sensor and the wand iff it is
   for the wand sensor.
   */
  function Deliver(s: State, r: TrackerReport): (s': State)
    ensures r.sensor == s.cfg.sensorHead ==> s'.scale.Some? && s'.head == Pose(QuatOf(r), PosOf(r).Times(s'.scale.value))
    ensures r.sensor != s.cfg.sensorHead ==> s'.head == s.head
    ensures r.sensor == s.cfg.sensorWand ==> s'.scale.Some? && s'.wand == Pose(QuatOf(r), PosOf(r).Times(s'.scale.value))
    ensures r.sensor != s.cfg.sensorWand ==> s'.wand == s.wand
    ensures s'.scale == s.scale || (s.scale.None? && s'.scale == Some(s.foreign.unitToCm))
    ensures s' == s.(head := s'.head, wand := s'.wand, scale := s'.scale)
  {
    var s1 := if r.sensor == s.cfg.sensorHead then HeadTracker(s, r) else s;
    if r.sensor == s.cfg.sensorWand then WandTracker(s1, r) else s1
  }

  /** Dispatch one message to the callback registered for its kind. */
  function Dispatch(s: State, m: Message): (r: Effect)
    ensures !m.ButtonMsg? ==> r.out == []
    ensures m.ButtonMsg? ==> r.st == s
    ensures m.AnalogMsg? ==> r.st == s.(analog := r.st.analog)
    ensures m.TrackerMsg? ==> r.st.analog == s.analog
  {
    match m
    case TrackerMsg(t) => Effect(Deliver(s, t), [])
    case ButtonMsg(b) => ButtonCallback(s, b)
    case AnalogMsg(a) => Effect(AnalogCallback(s, a), [])
  }

  /** One `mainloop` call: dispatch the waiting messages in arrival order. */
  function Drain(s: State, ms: seq<Message>): (r: Effect)
    ensures r.st == s.(head := r.st.head, wand := r.st.wand, scale := r.st.scale, analog := r.st.analog)
    ensures r.st.scale == s.scale || (s.scale.None? && r.st.scale == Some(s.foreign.unitToCm))
    ensures forall o :: o in r.out ==> o.Dump?
    decreases |ms|
  {
    if ms == [] then Effect(s, [])
    else
      var e := Dispatch(s, ms[0]);
      var rest := Drain(e.st, ms[1..]);
      Effect(rest.st, e.out + rest.out)
  }

  /** Draining `a + b` is draining `a`, then draining `b` from where that left off. */
  lemma {:induction false} DrainAppend(s: State, a: seq<Message>, b: seq<Message>)
    ensures var ea := Drain(s, a);
            var eb := Drain(ea.st, b);
            Drain(s, a + b) == Effect(eb.st, ea.out + eb.out)
    decreases |a|
  {
    if a == [] {
      assert a + b == b;
    } else {
      assert (a + b)[1..] == a[1..] + b;
      DrainAppend(Dispatch(s, a[0]).st, a[1..], b);
    }
  }

  /** The last tracker report in `ms` for sensor `id`, if there is one. */
  function LastFor(ms: seq<Message>, id: int): Option<TrackerReport>
  {
    if ms == [] then None
    else if LastFor(ms[1..], id).Some? then LastFor(ms[1..], id)
    else if ms[0].TrackerMsg? && ms[0].trackerReport.sensor == id then Some(ms[0].trackerReport)
    else None
  }

  /**
   After draining, the head pose is the one of the last head-sensor
   report, its position scaled by the one cached factor; with no such
   report the head pose is untouched.
   */
  lemma {:induction false} DrainHead(s: State, ms: seq<Message>)
    ensures var s' := Drain(s, ms).st;
            match LastFor(ms, s.cfg.sensorHead)
            case None => s'.head == s.head
            case Some(r) => s'.scale.Some? && s'.head == Pose(QuatOf(r), PosOf(r).Times(s'.scale.value))
    decreases |ms|
  {
    if ms != [] {
      DrainHead(Dispatch(s, ms[0]).st, ms[1..]);
    }
  }

  /** The wand counterpart of `DrainHead`. */
  lemma {:induction false} DrainWand(s: State, ms: seq<Message>)
    ensures var s' := Drain(s, ms).st;
            match LastFor(ms, s.cfg.sensorWand)
            case None => s'.wand == s.wand
            case Some(r) => s'.scale.Some? && s'.wand == Pose(QuatOf(r), PosOf(r).Times(s'.scale.value))
    decreases |ms|
  {
    if ms != [] {
      DrainWand(Dispatch(s, ms[0]).st, ms[1..]);
    }
  }

  /** The last analog report in `ms` with at least two channels, if there is one. */
  function LastValid(ms: seq<Message>): Option<AnalogReport>
  {
    if ms == [] then None
    else if LastValid(ms[1..]).Some? then LastValid(ms[1..])
    else if ms[0].AnalogMsg? && ms[0].analogReport.numChannel >= 2 then Some(ms[0].analogReport)
    else None
  }

  /**
   After draining, the analog vector comes from the last analog report
   with two or more channels; with none, the previous vector persists.
   */
  lemma {:induction false} DrainAnalogLatest(s: State, ms: seq<Message>)
    ensures Drain(s, ms).st.analog ==
            match LastValid(ms)
            case None => s.analog
            case Some(a) => Vec3(a.channel[0], 0.0, -a.channel[1])
    decreases |ms|
  {
    if ms != [] {
      DrainAnalogLatest(Dispatch(s, ms[0]).st, ms[1..]);
    }
  }

  /** How many messages of `ms` are presses of button 0, counted from the end. */
  function Presses(ms: seq<Message>): nat
  {
    if ms == [] then 0
    else
      var m := ms[|ms| - 1];
      Presses(ms[..|ms| - 1]) + (if m.ButtonMsg? && IsPress(m.buttonReport) then 1 else 0)
  }

  /** Draining prints exactly one dump per press of button 0 among the messages. */
  lemma {:induction false} DrainCountsPresses(s: State, ms: seq<Message>)
    ensures |Drain(s, ms).out| == Presses(ms)
    decreases |ms|
  {
    if ms != [] {
      var init := ms[..|ms| - 1];
      var m := ms[|ms| - 1];
      assert ms == init + [m];
      DrainAppend(s, init, [m]);
      assert [m][1..] == [];
      DrainCountsPresses(s, init);
    }
  }

  /**
   A press of button 0 dumps the state as the messages before it left it:
   the poses and analog vector of every earlier message, none of a later
   one.
   */
  lemma DumpShowsStateSoFar(s: State, before: seq<Message>, b: ButtonReport, after: seq<Message>)
    requires IsPress(b)
    ensures var e := Drain(s, before);
            var r := Drain(s, before + [ButtonMsg(b)] + after);
            |e.out| < |r.out| && r.out[|e.out|] == Dump(e.st.head, e.st.wand, e.st.analog)
  {
    var e := Drain(s, before);
    DrainAppend(s, before, [ButtonMsg(b)]);
    DrainAppend(s, before + [ButtonMsg(b)], after);
    assert [ButtonMsg(b)][1..] == [];
  }

  /**
   `check_tracker`: `mainloop` on the tracker, the button and the analog
   remote, in that order. It dereferences all three handles without a
   check.
   */
  function CheckTracker(s: State, p: Pending): (r: Effect)
    requires s.handles.tracker && s.handles.button && s.handles.analog
    ensures r.st == s.(head := r.st.head, wand := r.st.wand, scale := r.st.scale, analog := r.st.analog)
    ensures forall o :: o in r.out ==> o.Dump?
    ensures p == NothingPending ==> r == Effect(s, [])
  {
    var e1 := Drain(s, p.atTracker);
    var e2 := Drain(e1.st, p.atButton);
    var e3 := Drain(e2.st, p.atAnalog);
    Effect(e3.st, e1.out + e2.out + e3.out)
  }

  /**
   The three `mainloop` calls together dispatch every message that arrived
   during the frame, once each and in arrival order, whichever call found
   it waiting.
   */
  lemma CheckTrackerDrainsAll(s: State, p: Pending)
    requires s.handles.tracker && s.handles.button && s.handles.analog
    ensures CheckTracker(s, p) == Drain(s, Arrived(p))
  {
    DrainAppend(s, p.atTracker, p.atButton);
    DrainAppend(s, p.atTracker + p.atButton, p.atAnalog);
    var e1 := Drain(s, p.atTracker);
    var e2 := Drain(e1.st, p.atButton);
    assert e1.out + e2.out + Drain(e2.st, p.atAnalog).out == (e1.out + e2.out) + Drain(e2.st, p.atAnalog).out;
  }
}

=== FILE: reports.dfy ===
/**
 The samples the three VRPN channels hand to their callbacks, and the
 samples a channel may have pending when it is pumped.
 */
module Reports {
  import opened Geometry

  /** `vrpn_TRACKERCB::quat`: four components, in the order x, y, z, w. */
  type Quad = s: seq<real> | |s| == 4 witness [0.0, 0.0, 0.0, 1.0]

  /** `vrpn_TRACKERCB::pos`: three components, in device units. */
  type Triple = s: seq<real> | |s| == 3 witness [0.0, 0.0, 0.0]

  /**
   `vrpn_ANALOGCB::channel`: a fixed-size array in the callback record, so
   the first two entries can always be read, whatever `num_channel` says.
   */
  type ChannelArray = s: seq<real> | |s| >= 2 witness [0.0, 0.0]

  /** One tracker report: which sensor it is for, its raw position and its orientation. */
  datatype TrackerReport = TrackerReport(sensor: int, pos: Triple, quat: Quad)

  /** One button report: the button index and its new state (1 is pressed). */
  datatype ButtonReport = ButtonReport(button: int, state: int)

  /** One analog report: how many channels are valid, and the channel array. */
  datatype AnalogReport = AnalogReport(numChannel: int, channel: ChannelArray)

  /** The orientation a tracker report carries, built from `quat[0..3]` in order. */
  function QuatOf(r: TrackerReport): Quat
  {
    Quat(r.quat[0], r.quat[1], r.quat[2], r.quat[3])
  }

  /** The raw position a tracker report carries, still in device units. */
  function PosOf(r: TrackerReport): Vec3
  {
    Vec3(r.pos[0], r.pos[1], r.pos[2])
  }

  /**
   One message on the VRPN connection. The tracker, button and analog
   remotes are all opened on the same device name, so they share one
   connection, and the messages of all three arrive on it interleaved.
   */
  datatype Message =
    | TrackerMsg(trackerReport: TrackerReport)
    | ButtonMsg(buttonReport: ButtonReport)
    | AnalogMsg(analogReport: AnalogReport)

  /**
   What is waiting on the shared connection when each of the three
   `mainloop` calls of one frame runs; a `mainloop` call dispatches every
   waiting message, whichever remote it is made on. The network side of
   VRPN is not modelled, so these are an input.
   */
  datatype Pending = Pending(atTracker: seq<Message>, atButton: seq<Message>, atAnalog: seq<Message>)

  const NothingPending := Pending([], [], [])

  /** Every message the frame's three `mainloop` calls dispatch, in arrival order. */
  function Arrived(p: Pending): seq<Message>
  {
    p.atTracker + p.atButton + p.atAnalog
  }
}
